=== FILE: README.md ===
# Textbook RSA of the simple TCP server, in Dafny

The server in `Simple_tcpServer.py` does its own textbook RSA. It
generates candidate primes, tests them with Miller-Rabin, builds a key pair
with the Euclidean algorithm and its extended form, and encrypts and
decrypts messages as big-endian integers. This project models the number
theory and byte handling of that core and proves what it promises:

- `gcd` computes the greatest common divisor.
- `mod_inverse` returns an inverse of `e` modulo `phi` exactly when `gcd(phi, e) == 1`.
- Miller-Rabin never rejects a prime.
- Candidates are odd and have exactly the requested number of bits.
- Decryption undoes encryption for messages below the modulus when `p != q`; leading zero bytes of the message are lost.

Modules, one per file:

- `Wrappers` (`wrappers.dfy`): `Option` and `Result`.
- `Arithmetic` (`arithmetic.dfy`): `Pow`, divisibility, and the modular arithmetic lemmas everything else rests on.
- `Primes` (`primes.dfy`): primality, the Euclidean `Gcd` as a reference definition, Bezout's identity, Euclid's lemma, and the square roots of one modulo a prime.
- `Fermat` (`fermat.dfy`): the binomial theorem and Fermat's little theorem.
- `Euclid` (`euclid.dfy`): the `gcd` and `mod_inverse` loops.
- `MillerRabin` (`miller_rabin.dfy`): `miller_rabin_test`, following appendix C.3.1 of FIPS 186-4.
- `Candidate` (`candidate.dfy`): `generate_candidate`, with bitwise OR on naturals.
- `Octets` (`octets.dfy`): `int.from_bytes` and `int.to_bytes` at the minimal length.
- `Rsa` (`rsa.dfy`): the arithmetic of `generate_rsa_keys`, and the integer and byte core of `encrypt_rsa` and `decrypt_rsa`. This core is the RSAEP and RSADP primitives of section 5.1 of RFC 8017 without their range check: RSAEP rejects a message representative `m >= n`, and the server does not.

Randomness becomes explicit input:

- the Miller-Rabin bases are a sequence, one base per round;
- the value of `random.getrandbits(bits)` is a parameter;
- the exponent draws of `random.randrange(1, phi)` are a sequence.

Behaviour of the code worth knowing, which the model keeps:

- `mod_inverse` returns `d + phi`, which is not reduced below `phi`. When the last non-zero remainder is not 1 it falls off its end and returns `None`.
- `miller_rabin_test` answers False for 0 and 1.
- The exponent is drawn from `[1, phi)`, so `e == 1` is possible, although the comment at Simple_tcpServer.py:285 asks for `1 < e`. `Rsa.ExponentOneKeys` shows that this exponent yields a key pair and `Rsa.ExponentOneIsIdentity` what it does to messages.
- Encryption does not check that the message value is below `n`. Nothing stops `p == q` either.
- Leading zero bytes of a message are lost: `int.from_bytes` ignores them and `to_bytes` writes the minimal length, so decryption returns `[65]` for the message `[0, 65]` (`Octets.LeadingZeroDropped`, `Rsa.EncryptDecrypt`).

## Model

| member | source | states |
|---|---|---|
| Euclid.EuclidGcd | Simple_tcpServer.py:204-218 | The loop `while b != 0: a, b = b, a % b` returns a common divisor of both inputs that every common divisor divides, and it agrees with the recursive reference `Gcd`. |
| Primes.GcdIsGcd | Simple_tcpServer.py:216-218 | The Euclidean recursion yields a greatest common divisor in the divisibility order, so `gcd(a, b)` is the greatest common divisor for all naturals. |
| Primes.GcdCommutative | Simple_tcpServer.py:287 | The gcd does not depend on argument order, so the filter `gcd(e, phi) != 1` and the inverse's condition `gcd(phi, e) == 1` agree. |
| Euclid.GcdTestExpectations | unitTest_Client.py:38-43 | The expected values of the gcd unit tests hold, and `gcd(a, 0) == a`. |
| Euclid.ModInverse | Simple_tcpServer.py:229-254 | The extended Euclid loop returns a value exactly when `gcd(phi, e) == 1`. That value times `e` is 1 modulo `phi`, and for `0 < e < phi` it lies in `(0, 2 * phi)`. Otherwise the function falls off its end and returns `None`. |
| Euclid.LoopStep | Simple_tcpServer.py:244-251 | One loop iteration keeps three things: the gcd of the two remainders, both Bezout identities, and the sign alternation of the coefficients of `e`, which bounds them by `phi / 2`. |
| MillerRabin.FastPath | Simple_tcpServer.py:63-71 | The trivial cases accept exactly 2, 3, 5, 7 and 11. Anything they pass on is odd, at least 13, and divisible by neither 3 nor 5. |
| MillerRabin.DigitSumMod3 | Simple_tcpServer.py:68 | The decimal digit sum of `str(n)` is congruent to `n` modulo 3, so the digit-sum test is the test for divisibility by 3. |
| MillerRabin.LastDigitMod5 | Simple_tcpServer.py:70 | The last decimal digit decides divisibility by 5. |
| MillerRabin.FastPathRejectsOnlyNonPrimes | Simple_tcpServer.py:66-71 | Every rejection by the trivial cases is of a non-prime. |
| MillerRabin.OddSplit | Simple_tcpServer.py:73-77 | Every positive `m` is `2^r * d` with `d` odd. |
| MillerRabin.OddSplitUnique | Simple_tcpServer.py:73-77 | That split is unique. |
| MillerRabin.SplitPowerOfTwo | Simple_tcpServer.py:74-77 | The halving loop computes the unique split of `n - 1`. |
| MillerRabin.MillerRabinTest | Simple_tcpServer.py:48-91 | The full test with one given base per round. It accepts the five small primes. When it accepts, `n >= 2` and `n` has no factor 2, 3 or 5 unless it is that prime. |
| MillerRabin.PrimePassesRound | Simple_tcpServer.py:80-90 | An odd prime passes a round for every base it does not divide, so the round's `else: return False` never fires for a prime. |
| MillerRabin.MinusOneBeforeOne | Simple_tcpServer.py:83-88 | Modulo a prime, a value whose repeated squaring reaches 1 is 1 or `n - 1`, or reaches `n - 1` within the inner loop's squarings. |
| MillerRabin.MillerRabinSound | Simple_tcpServer.py:48-91 | A prime passes the whole test for every choice of bases in `[2, n - 2]`, which is the range of `randrange(2, n - 1)`. A False answer therefore proves compositeness. |
| MillerRabin.StrongLiarFortyNine | Simple_tcpServer.py:80-90 | The converse fails: the composite 49 passes with base 18 and is caught with base 2. |
| MillerRabin.UnitTestExpectations | unitTest_Client.py:6-36 | For every choice of bases: the small primes are accepted, and the small and large composites of the unit tests are rejected. |
| Primes.SquareRootOfOne | Simple_tcpServer.py:83-88 | Modulo a prime the only square roots of 1 are 1 and `n - 1`. |
| Fermat.FermatLittle | Simple_tcpServer.py:82 | `a^(p-1) == 1` modulo a prime `p` that does not divide `a`. |
| Candidate.GenerateCandidate | Simple_tcpServer.py:101-117 | With `bits == 0` the negative shift raises (`None`). Otherwise the candidate is odd and lies in `[2^(bits-1), 2^bits)`. Its set bits are exactly those of the random draw plus bit 0 and bit `bits - 1`. |
| Candidate.BitOrBits | Simple_tcpServer.py:116 | Bit `i` of the bitwise OR of `a` and `b` is set exactly when it is set in `a` or in `b`. |
| Candidate.BitOrBelow | Simple_tcpServer.py:116 | The bitwise OR stays below `2^k` when both operands do. |
| Candidate.SixteenBitCandidates | Simple_tcpServer.py:115-116 | Every 16-bit candidate lies in `[32769, 65535]`. |
| Octets.ToBytes | Simple_tcpServer.py:327 | `x.to_bytes(len, 'big')` for a value that fits has `len` bytes that read back as `x`. |
| Octets.MinimalBytes | Simple_tcpServer.py:327 | At length `(bit_length + 7) // 8` the encoding reads back as `x`, is empty exactly for zero, and never starts with a zero byte. |
| Octets.MinimalLengthFits | Simple_tcpServer.py:327 | `(bit_length + 7) // 8` bytes hold `x`, and one fewer would not. |
| Octets.MinimalBytesRoundTrip | Simple_tcpServer.py:321-327 | Reading a byte string as an integer and writing it back at the minimal length is the identity exactly on strings without a leading zero byte. |
| Octets.LeadingZeroDropped | Simple_tcpServer.py:321 | A leading zero byte does not change `int.from_bytes`, so the round trip loses it. |
| Rsa.ChooseExponent | Simple_tcpServer.py:286-288 | The rejection loop returns the first draw coprime to `phi`, and returns nothing exactly when no draw is coprime. |
| Rsa.GenerateKeys | Simple_tcpServer.py:280-294 | Given `p`, `q` and the draws, key generation fails with an empty exponent range exactly when `phi <= 1`, fails on exhausted draws exactly when `phi > 1` and no draw is coprime to `phi`, and succeeds exactly when `phi > 1` and some draw is coprime. On success, both keys share `n = p * q`, `e` is the first coprime draw in `[1, phi)`, and `e * d == 1` modulo `phi` with `0 < d < 2 * phi`. |
| Rsa.ModPow | Simple_tcpServer.py:324 | `pow(m, e, n)` is a residue below `n`. |
| Rsa.Encrypt | Simple_tcpServer.py:318-327 | The ciphertext reads as `m^e mod n` for the message value `m`, is below `n`, and has no leading zero byte. |
| Rsa.Decrypt | Simple_tcpServer.py:357-369 | The plaintext reads as `c^d mod n` for the ciphertext value `c`, is below `n`, and has no leading zero byte. |
| Rsa.ExponentOneKeys | Simple_tcpServer.py:285-291 | Although the comment asks for `1 < e`, the draw 1 lies in `randrange(1, phi)`, passes the gcd filter whenever `phi > 1`, and yields a valid key pair with `e == 1`. |
| Rsa.ExponentOneIsIdentity | Simple_tcpServer.py:318-327 | With `e == 1`, encryption returns every message without a leading zero byte, below `n`, unchanged. |
| Rsa.PowCongruentModPrime | Simple_tcpServer.py:366 | `m^(1 + k(p-1)) == m` modulo a prime `p`, for every `m`, including multiples of `p`. |
| Rsa.ChineseRemainder | Simple_tcpServer.py:280 | Numbers congruent modulo two distinct primes are congruent modulo their product `n`. |
| Rsa.RsaInverse | Simple_tcpServer.py:324-366 | For distinct primes, exponents inverse modulo `(p-1)(q-1)` and `m < n`, decrypting the encryption of `m` gives `m`. |
| Rsa.EncryptDecrypt | Simple_tcpServer.py:318-369 | For distinct primes `p`, `q`, a key pair satisfying `ValidKeyPair` (what `GenerateKeys` delivers) and a message whose value is below `n`, decryption returns the minimal encoding of the message value. |
| Rsa.RoundTrip | Simple_tcpServer.py:318-369 | For distinct primes `p`, `q`, a key pair satisfying `ValidKeyPair` and a message below `n` without a leading zero byte, decryption returns the message itself. |

## Left out

- The `__main__` block: sockets, the client protocol and the key exchange over the network, which are I/O.
- `find_prime` and `generate_random_prime`: the search loops over processes and the race between them, which are concurrency and randomness. `GenerateKeys` takes `p` and `q` as parameters and states its results for any `p, q >= 2`. The correctness lemmas add primality as a hypothesis.
- The `random` module: base draws, raw bits and exponent draws are parameters.
- UTF-8 encoding and decoding of text, and base64: the model works on the byte strings between them.
- `agora` and every `print`: logging only.
- Negative arguments to `gcd` and `mod_inverse`: Python's floor division would apply to them. The server only passes non-negative values, so the model takes naturals.
- Candidate.GenerateCandidate: takes `bits` as a natural. For negative `bits`, `random.getrandbits(bits)` raises `ValueError`; `generate_rsa_keys` only passes `bits // 2 >= 0` for non-negative `bits`.
- Euclid.ModInverse: requires `phi >= 1`. The Python function accepts `phi == 0` (`mod_inverse(1, 0)` returns 1), but `generate_rsa_keys` never passes it, because `randrange(1, phi)` raises first when `phi <= 1`.
- Negative `n` for `miller_rabin_test`: a negative odd `n` passes the parity check and then `int('-')` in the digit sum raises `ValueError`. The server only tests positive candidates, so the model takes naturals.
- MillerRabin.MillerRabinTest: the probability bound of `4^-k` on a composite passing `k` rounds is not stated. It is a statement about random bases, which the model takes as given.
- MillerRabin.UnitTestExpectations: the expectations that 104729, 1299709, 32416190071 and 32416187567 are accepted are not stated. They need primality proofs for those numbers; `MillerRabinSound` gives the general result.
- Rsa.ModPow: requires `n >= 1`. Python's `pow` raises on modulus zero, which cannot arise from primes at least 2.
- Rsa.RsaInverse: requires `p != q`, which the server does not check. With `p == q` the totient is wrong and the round trip can fail.
- Rsa.EncryptDecrypt: requires distinct primes `p != q`, for the same reason as `Rsa.RsaInverse`. `GenerateKeys(3, 3, [3])` succeeds, and with it the message `[3]` encrypts and decrypts to `[]`.
- Rsa.RoundTrip: requires distinct primes `p != q`, as `Rsa.EncryptDecrypt` does.

=== FILE: arithmetic.dfy ===
/**
 Natural-number exponentiation, divisibility and the modular-arithmetic facts
 the rest of the model relies on. Dafny's `/` and `%` are Euclidean; every
 operand used with them in this project is non-negative or the modulus is
 positive, where they agree with Python's `//` and `%`.
 */
module Arithmetic {

  /** `b` raised to the power `e`, with `Pow(0, 0) == 1` as in Python. */
  function Pow(b: nat, e: nat): (r: nat)
    ensures b > 0 ==> r > 0
  {
    if e == 0 then 1 else b * Pow(b, e - 1)
  }

  /** `d` divides `n`; zero divides only zero. */
  predicate Divides(d: nat, n: nat)
  {
    if d == 0 then n == 0 else n % d == 0
  }

  lemma MulAssociative(a: int, b: int, c: int)
    ensures a * (b * c) == (a * b) * c
  {
  }

  lemma {:induction false} PowAdd(b: nat, e1: nat, e2: nat)
    ensures Pow(b, e1 + e2) == Pow(b, e1) * Pow(b, e2)
    decreases e1
  {
    if e1 > 0 {
      PowAdd(b, e1 - 1, e2);
      assert Pow(b, e1 + e2) == b * Pow(b, e1 - 1 + e2);
      MulAssociative(b, Pow(b, e1 - 1), Pow(b, e2));
    }
  }

  lemma {:induction false} PowMul(b: nat, e1: nat, e2: nat)
    ensures Pow(b, e1 * e2) == Pow(Pow(b, e1), e2)
    decreases e2
  {
    if e2 > 0 {
      calc {
        Pow(b, e1 * e2);
        { assert e1 * e2 == e1 + e1 * (e2 - 1); }
        Pow(b, e1 + e1 * (e2 - 1));
        { PowAdd(b, e1, e1 * (e2 - 1)); }
        Pow(b, e1) * Pow(b, e1 * (e2 - 1));
        { PowMul(b, e1, e2 - 1); }
        Pow(b, e1) * Pow(Pow(b, e1), e2 - 1);
      }
    }
  }

  lemma {:induction false} PowOne(e: nat)
    ensures Pow(1, e) == 1
  {
    if e > 0 {
      PowOne(e - 1);
    }
  }

  lemma {:induction false} PowMonotone(b: nat, e1: nat, e2: nat)
    requires b >= 1 && e1 <= e2
    ensures Pow(b, e1) <= Pow(b, e2)
    decreases e2
  {
    if e1 < e2 {
      PowMonotone(b, e1, e2 - 1);
      assert Pow(b, e2) == b * Pow(b, e2 - 1) >= Pow(b, e2 - 1);
    }
  }

  /** A positive factor does not shrink a non-negative number. */
  lemma MulAtLeast(n: int, t: int)
    requires n >= 0 && t >= 1
    ensures n * t >= n
  {
    var s := t - 1;
    assert n * t == n * s + n;
    assert n * s >= 0;
  }

  /** Quotient and remainder are unique. */
  lemma DivModUnique(m: int, n: int, q: int, r: int)
    requires n > 0 && 0 <= r < n && m == n * q + r
    ensures m / n == q && m % n == r
  {
    var q' := m / n;
    var r' := m % n;
    assert m == n * q' + r';
    assert n * q - n * q' == r' - r;
    assert n * (q - q') == r' - r;
    if q > q' {
      MulAtLeast(n, q - q');
      assert false;
    } else if q < q' {
      assert n * (q' - q) == r - r';
      MulAtLeast(n, q' - q);
      assert false;
    }
  }

  /** Adding a multiple of the modulus does not change the remainder. */
  lemma ModAddMultiple(a: int, n: int, k: int)
    requires n > 0
    ensures (a + n * k) % n == a % n
  {
    var q := a / n;
    var r := a % n;
    assert a + n * k == n * (q + k) + r;
    DivModUnique(a + n * k, n, q + k, r);
  }

  /** A multiple of the modulus leaves no remainder. */
  lemma ModMultiple(n: int, k: int)
    requires n > 0
    ensures (n * k) % n == 0
  {
    ModAddMultiple(0, n, k);
  }

  /** Reducing the left factor of a product modulo `n` does not change the product's remainder. */
  lemma ModMulLeft(a: int, b: int, n: int)
    requires n > 0
    ensures (a * b) % n == ((a % n) * b) % n
  {
    var q := a / n;
    assert a == n * q + a % n;
    assert a * b == (a % n) * b + n * (q * b);
    ModAddMultiple((a % n) * b, n, q * b);
  }

  lemma ModMul(a: int, b: int, n: int)
    requires n > 0
    ensures (a * b) % n == ((a % n) * (b % n)) % n
  {
    ModMulLeft(a, b, n);
    ModMulLeft(b, a % n, n);
    assert (a % n) * b == b * (a % n);
    assert (b % n) * (a % n) == (a % n) * (b % n);
  }

  lemma ModAdd(a: int, b: int, n: int)
    requires n > 0
    ensures (a + b) % n == ((a % n) + (b % n)) % n
  {
    assert a == n * (a / n) + a % n;
    assert b == n * (b / n) + b % n;
    assert a + b == (a % n) + (b % n) + n * (a / n + b / n);
    ModAddMultiple((a % n) + (b % n), n, a / n + b / n);
  }

  /** Reducing the base modulo `n` does not change a power's remainder. */
  lemma {:induction false} PowMod(b: nat, e: nat, n: nat)
    requires n > 0
    ensures Pow(b % n, e) % n == Pow(b, e) % n
  {
    if e > 0 {
      var c := b % n;
      var x := Pow(c, e - 1);
      var y := Pow(b, e - 1);
      PowMod(b, e - 1, n);
      assert x % n == y % n;
      ModOfMod(b, n);
      assert c % n == b % n;
      MulModCongruent(c, x, b, y, n);
      assert Pow(c, e) == c * x;
      assert Pow(b, e) == b * y;
    }
  }

  lemma ModOfMod(a: int, n: int)
    requires n > 0
    ensures (a % n) % n == a % n
  {
    DivModUnique(a % n, n, 0, a % n);
  }

  /** Products of congruent factors are congruent. */
  lemma MulModCongruent(a: int, b: int, a': int, b': int, n: int)
    requires n > 0 && a % n == a' % n && b % n == b' % n
    ensures (a * b) % n == (a' * b') % n
  {
    ModMul(a, b, n);
    ModMul(a', b', n);
  }

  /** Adding a multiple of a multiple of `n` leaves the remainder unchanged. */
  lemma ModAddDivisibleTerm(a: int, b: int, w: int, n: int)
    requires n > 0 && b % n == 0
    ensures (a + b * w) % n == a % n
  {
    var t := b / n;
    assert b == n * t;
    assert b * w == n * (t * w);
    ModAddMultiple(a, n, t * w);
  }

  /** Two numbers with equal remainders differ by a multiple of the modulus. */
  lemma ModEqualDifference(x: nat, y: nat, n: nat)
    requires n > 0 && x >= y && x % n == y % n
    ensures (x - y) % n == 0
  {
    assert x == n * (x / n) + x % n;
    assert y == n * (y / n) + y % n;
    assert x - y == n * (x / n - y / n);
    ModMultiple(n, x / n - y / n);
  }

  /** If `t == p * u` and `q` divides `u`, then `p * q` divides `t`. */
  lemma ProductDivides(p: nat, q: nat, t: int, u: int)
    requires p > 0 && q > 0 && t == p * u && u % q == 0
    ensures t % (p * q) == 0
  {
    var v := u / q;
    assert u == q * v;
    assert t == (p * q) * v;
    ModMultiple(p * q, v);
  }

  /** Numbers differing by a multiple of `n` have equal remainders: the converse of `ModEqualDifference`. */
  lemma ModEqualFromDifference(x: nat, y: nat, n: nat)
    requires n > 0 && x >= y && (x - y) % n == 0
    ensures x % n == y % n
  {
    var v := (x - y) / n;
    assert x == y + n * v;
    ModAddMultiple(y, n, v);
  }
}

=== FILE: candidate.dfy ===
/**
 `generate_candidate` (Simple_tcpServer.py:101-117): a raw random value of
 `bits` bits, from `random.getrandbits(bits)`, with its top bit and its low
 bit forced on by `candidate |= (1 << bits - 1) | 1`. The raw value is a
 parameter. Python's `1 << bits - 1` parses as `1 << (bits - 1)`, that is
 `2^(bits - 1)`.
 */
module Candidate {
  import opened Wrappers
  import opened Arithmetic

  /** Bit `i` of `x`, Python's `(x >> i) & 1 == 1`. */
  predicate Bit(x: nat, i: nat)
  {
    (x / Pow(2, i)) % 2 == 1
  }

  /** Python's `a | b` on non-negative integers, one bit at a time from the bottom. */
  function BitOr(a: nat, b: nat): nat
    decreases a + b
  {
    if a == 0 && b == 0 then 0
    else 2 * BitOr(a / 2, b / 2) + (if a % 2 == 1 || b % 2 == 1 then 1 else 0)
  }

  /** Dividing by `a` and then by `b` is dividing by `a * b`. */
  lemma DivDiv(x: nat, a: nat, b: nat)
    requires a > 0 && b > 0
    ensures x / (a * b) == (x / a) / b
  {
    var q1 := x / a;
    var q2 := q1 / b;
    var rem := a * (q1 % b) + x % a;
    assert x == a * q1 + x % a;
    assert q1 == b * q2 + q1 % b;
    assert x == (a * b) * q2 + rem by {
      assert a * q1 == a * (b * q2) + a * (q1 % b);
    }
    assert rem < a * b by {
      MulAtLeast(a, b - q1 % b);
      assert a * (q1 % b) + a <= a * b by {
        assert a * (b - q1 % b) == a * b - a * (q1 % b);
      }
    }
    DivModUnique(x, a * b, q2, rem);
  }

  /** Bit `i + 1` of `x` is bit `i` of `x / 2`. */
  lemma BitShift(x: nat, i: nat)
    ensures Bit(x, i + 1) == Bit(x / 2, i)
  {
    assert Pow(2, i + 1) == 2 * Pow(2, i);
    DivDiv(x, 2, Pow(2, i));
  }

  /** Bit 0 is the parity. */
  lemma BitZero(x: nat)
    ensures Bit(x, 0) <==> x % 2 == 1
  {
    assert Pow(2, 0) == 1;
  }

  /** The bits of `BitOr(a, b)` are those set in `a` or in `b`. */
  lemma {:induction false} BitOrBits(a: nat, b: nat, i: nat)
    ensures Bit(BitOr(a, b), i) <==> Bit(a, i) || Bit(b, i)
    decreases i
  {
    var c := BitOr(a, b);
    if a == 0 && b == 0 {
      assert c == 0;
      assert 0 / Pow(2, i) == 0;
    } else if i == 0 {
      BitOrLow(a, b);
      BitZero(c);
      BitZero(a);
      BitZero(b);
    } else {
      BitOrHigh(a, b);
      BitShift(c, i - 1);
      BitShift(a, i - 1);
      BitShift(b, i - 1);
      BitOrBits(a / 2, b / 2, i - 1);
    }
  }

  /** The low bit of `BitOr(a, b)`. */
  lemma BitOrLow(a: nat, b: nat)
    ensures BitOr(a, b) % 2 == 1 <==> a % 2 == 1 || b % 2 == 1
  {
    if a > 0 || b > 0 {
      var low := if a % 2 == 1 || b % 2 == 1 then 1 else 0;
      var h := BitOr(a / 2, b / 2);
      assert BitOr(a, b) == 2 * h + low;
      DivModUnique(BitOr(a, b), 2, h, low);
    }
  }

  /** The higher bits of `BitOr(a, b)`. */
  lemma BitOrHigh(a: nat, b: nat)
    ensures BitOr(a, b) / 2 == BitOr(a / 2, b / 2)
  {
    if a > 0 || b > 0 {
      var low := if a % 2 == 1 || b % 2 == 1 then 1 else 0;
      var h := BitOr(a / 2, b / 2);
      assert BitOr(a, b) == 2 * h + low;
      DivModUnique(BitOr(a, b), 2, h, low);
    }
  }

  /** `BitOr` stays below `2^k` when both operands do. */
  lemma {:induction false} BitOrBelow(a: nat, b: nat, k: nat)
    requires a < Pow(2, k) && b < Pow(2, k)
    ensures BitOr(a, b) < Pow(2, k)
    decreases k
  {
    if k > 0 && (a > 0 || b > 0) {
      var h := Pow(2, k - 1);
      assert Pow(2, k) == 2 * h;
      BitOrBelow(a / 2, b / 2, k - 1);
    }
  }

  /** A set bit `i` makes the number at least `2^i`. */
  lemma BitAtLeast(x: nat, i: nat)
    requires Bit(x, i)
    ensures x >= Pow(2, i)
  {
    if x < Pow(2, i) {
      DivModUnique(x, Pow(2, i), 0, x);
    }
  }

  /** The only bit of `2^j` is bit `j`. */
  lemma PowerOfTwoBits(j: nat, i: nat)
    ensures Bit(Pow(2, j), i) <==> i == j
  {
    if i > j {
      PowMonotone(2, j + 1, i);
      assert Pow(2, j + 1) == 2 * Pow(2, j);
      DivModUnique(Pow(2, j), Pow(2, i), 0, Pow(2, j));
    } else {
      PowAdd(2, i, j - i);
      DivModUnique(Pow(2, j), Pow(2, i), Pow(2, j - i), 0);
      if i < j {
        assert Pow(2, j - i) == 2 * Pow(2, j - i - 1);
      }
    }
  }

  /**
   `generate_candidate(bits)` with the draw `raw` of `getrandbits(bits)`.
   `bits == 0` makes Python raise on the negative shift count, modelled as
   `None`. Otherwise the candidate is odd, has exactly `bits` bits, and its
   bits are those of `raw` together with bit 0 and bit `bits - 1`.
   */
  function GenerateCandidate(bits: nat, raw: nat): (c: Option<nat>)
    requires raw < Pow(2, bits)
    ensures c.None? <==> bits == 0
    ensures c.Some? ==> c.value % 2 == 1
    ensures c.Some? ==> Pow(2, bits - 1) <= c.value < Pow(2, bits)
    ensures c.Some? ==> forall i: nat :: Bit(c.value, i) <==> Bit(raw, i) || i == 0 || i == bits - 1
  {
    if bits == 0 then None
    else
      var mask := BitOr(Pow(2, bits - 1), 1);
      var candidate := BitOr(raw, mask);
      CandidateFacts(bits, raw, mask, candidate);
      Some(candidate)
  }

  lemma CandidateFacts(bits: nat, raw: nat, mask: nat, candidate: nat)
    requires bits >= 1 && raw < Pow(2, bits)
    requires mask == BitOr(Pow(2, bits - 1), 1) && candidate == BitOr(raw, mask)
    ensures candidate % 2 == 1
    ensures Pow(2, bits - 1) <= candidate < Pow(2, bits)
    ensures forall i: nat :: Bit(candidate, i) <==> Bit(raw, i) || i == 0 || i == bits - 1
  {
    forall i: nat
      ensures Bit(candidate, i) <==> Bit(raw, i) || i == 0 || i == bits - 1
    {
      BitOrBits(raw, mask, i);
      BitOrBits(Pow(2, bits - 1), 1, i);
      PowerOfTwoBits(bits - 1, i);
      PowerOfTwoBits(0, i);
    }
    BitZero(candidate);
    BitAtLeast(candidate, bits - 1);
    PowMonotone(2, bits - 1, bits);
    PowMonotone(2, 0, bits);
    assert Pow(2, 0) == 1;
    BitOrBelow(Pow(2, bits - 1), 1, bits) by {
      assert Pow(2, bits) == 2 * Pow(2, bits - 1);
    }
    BitOrBelow(raw, mask, bits);
  }

  /** The 16-bit instance: every candidate lies in `[2^15 + 1, 2^16 - 1]`. */
  lemma SixteenBitCandidates(raw: nat)
    requires raw < Pow(2, 16)
    ensures GenerateCandidate(16, raw).Some?
    ensures 32769 <= GenerateCandidate(16, raw).value <= 65535
  {
    assert Pow(2, 15) == 32768;
    assert Pow(2, 16) == 65536;
  }
}

=== FILE: euclid.dfy ===
/**
 The two Euclidean loops of the server: `gcd` (Simple_tcpServer.py:204-218)
 and the extended-Euclid `mod_inverse` (Simple_tcpServer.py:229-254).
 */
module Euclid {
  import opened Wrappers
  import opened Arithmetic
  import opened Primes

  /**
   The `gcd` loop: `while b != 0: a, b = b, a % b`. The result divides both
   inputs and every common divisor divides it.
   */
  method EuclidGcd(a: nat, b: nat) returns (g: nat)
    ensures g == Gcd(a, b)
    ensures Divides(g, a) && Divides(g, b)
    ensures forall c: nat :: Divides(c, a) && Divides(c, b) ==> Divides(c, g)
  {
    var x, y := a, b;
    while y != 0
      invariant Gcd(x, y) == Gcd(a, b)
      decreases y
    {
      x, y := y, x % y;
    }
    g := x;
    GcdIsGcd(a, b);
  }

  /** The expectations of the unit tests for `gcd`, and `gcd(a, 0) == a`. */
  lemma GcdTestExpectations(a: nat)
    ensures Gcd(a, 0) == a
    ensures Gcd(2, 5) == 1 && Gcd(3, 5) == 1 && Gcd(5, 5) == 5 && Gcd(7, 5) == 1 && Gcd(11, 5) == 1
  {
  }

  /**
   The `mod_inverse` loop. The remainders `tempPhi`, `rest` run through the
   Euclidean sequence of `phi` and `e`; `x2, d` and `x1, y1` are their
   Bezout coefficients with respect to `phi` and `e`. When the last non-zero
   remainder is 1 the result is `d + phi`, which is an inverse of `e` modulo
   `phi` but is not reduced below `phi`; otherwise the source falls off the
   end of the function and returns `None`.
   */
  method ModInverse(e: nat, phi: nat) returns (r: Option<int>)
    requires phi >= 1
    ensures r.Some? <==> Gcd(phi, e) == 1
    ensures r.Some? ==> (e * r.value) % phi == 1 % phi
    ensures r.Some? && 0 < e < phi ==> 0 < r.value < 2 * phi
  {
    var d: int, x1: int, x2: int, y1: int := 0, 0, 1, 1;
    var tempPhi: int, rest: int := phi, e;
    while rest > 0
      invariant LoopInvariant(phi, e, tempPhi, rest, x2, d, x1, y1)
      decreases rest
    {
      var temp1 := tempPhi / rest;
      var temp2 := tempPhi - temp1 * rest;
      LoopStep(phi, e, tempPhi, rest, x2, d, x1, y1);
      tempPhi, rest := rest, temp2;
      var x := x2 - temp1 * x1;
      var y := d - temp1 * y1;
      x2, x1 := x1, x;
      d, y1 := y1, y;
    }
    if tempPhi == 1 {
      r := Some(d + phi);
      InverseFromBezout(e, phi, x2, d);
    } else {
      r := None;
    }
  }

  /**
   The loop invariant of `mod_inverse`: the Euclidean sequence keeps the gcd,
   both remainders keep their Bezout identities, and when `e < phi` the
   coefficients of `e` alternate in sign and stay within `phi / 2`.
   */
  ghost predicate LoopInvariant(phi: nat, e: nat, tempPhi: int, rest: int, x2: int, d: int, x1: int, y1: int)
  {
    && tempPhi >= 0 && rest >= 0
    && Gcd(tempPhi, rest) == Gcd(phi, e)
    && tempPhi == x2 * phi + d * e
    && rest == x1 * phi + y1 * e
    && (e < phi ==> tempPhi > rest && Alternating(tempPhi, rest, d, y1, phi) && 2 * Abs(d) <= phi)
  }

  /** One iteration of the `mod_inverse` loop keeps its invariant. */
  lemma LoopStep(phi: nat, e: nat, tempPhi: int, rest: int, x2: int, d: int, x1: int, y1: int)
    requires phi >= 1 && rest > 0
    requires LoopInvariant(phi, e, tempPhi, rest, x2, d, x1, y1)
    ensures 0 <= tempPhi - (tempPhi / rest) * rest < rest
    ensures
      var q := tempPhi / rest;
      LoopInvariant(phi, e, rest, tempPhi - q * rest, x1, y1, x2 - q * x1, d - q * y1)
  {
    var q := tempPhi / rest;
    var rem := tempPhi - q * rest;
    assert rem == tempPhi % rest;
    BezoutStep(tempPhi, rest, q, x2, x1, d, y1, phi, e);
    if e < phi {
      AlternatingStep(tempPhi, rest, q, rem, d, y1, phi);
    }
  }

  function Abs(x: int): nat
  {
    if x < 0 then -x else x
  }

  /**
   The sign-alternation invariant of the extended Euclidean algorithm: the
   coefficients of `e` have opposite signs and `tempPhi * y1 - rest * d`
   is plus or minus `phi`.
   */
  ghost predicate Alternating(tempPhi: int, rest: int, d: int, y1: int, phi: int)
  {
    || (d <= 0 < y1 && y1 * tempPhi - d * rest == phi)
    || (y1 < 0 <= d && d * rest - y1 * tempPhi == phi)
  }

  /** One loop step keeps the Bezout identity of the remainder. */
  lemma BezoutStep(tempPhi: int, rest: int, q: int, x2: int, x1: int, d: int, y1: int, phi: int, e: int)
    requires tempPhi == x2 * phi + d * e && rest == x1 * phi + y1 * e
    ensures tempPhi - q * rest == (x2 - q * x1) * phi + (d - q * y1) * e
  {
    assert q * rest == (q * x1) * phi + (q * y1) * e;
  }

  /**
   One loop step keeps the alternation, and the coefficient that moves into
   `d` is at most half of `phi` in absolute value.
   */
  lemma AlternatingStep(tempPhi: int, rest: int, q: int, rem: int, d: int, y1: int, phi: int)
    requires tempPhi > rest > 0 && q == tempPhi / rest && rem == tempPhi - q * rest
    requires Alternating(tempPhi, rest, d, y1, phi)
    ensures Alternating(rest, rem, y1, d - q * y1, phi)
    ensures 2 * Abs(y1) <= phi
  {
    assert q >= 1;
    assert tempPhi >= 2;
    var y := d - q * y1;
    assert y1 * rem - y * rest == y1 * tempPhi - d * rest by {
      assert y1 * rem == y1 * tempPhi - q * y1 * rest;
      assert y * rest == d * rest - q * y1 * rest;
    }
    if d <= 0 < y1 {
      MulAtLeast(y1, q);
      assert y1 * q >= 1;
      assert y < 0;
      assert d * rest <= 0 by {
        assert (-d) * rest >= 0;
      }
      MulAtLeast(y1, tempPhi - 1);
      assert 2 * y1 <= y1 * tempPhi;
    } else {
      MulAtLeast(-y1, q);
      assert y > 0;
      assert d * rest >= 0;
      MulAtLeast(-y1, tempPhi - 1);
      assert 2 * (-y1) <= (-y1) * tempPhi;
    }
  }

  /** The result of a successful run is an inverse of `e` modulo `phi`. */
  lemma InverseFromBezout(e: int, phi: int, x2: int, d: int)
    requires phi >= 1 && 1 == x2 * phi + d * e
    ensures (e * (d + phi)) % phi == 1 % phi
  {
    assert e * (d + phi) == 1 + phi * (e - x2);
    ModAddMultiple(1, phi, e - x2);
  }
}

=== FILE: fermat.dfy ===
/**
 Fermat's little theorem, proved from the binomial theorem: a prime `p`
 divides every inner binomial coefficient `Binomial(p, k)`, so
 `(x + 1)^p == x^p + 1` modulo `p`, and induction on the base gives
 `a^p == a` modulo `p`.
 */
module Fermat {
  import opened Arithmetic
  import opened Primes

  /** Binomial coefficients by Pascal's rule; zero when `k > n`. */
  function Binomial(n: nat, k: nat): nat
  {
    if k == 0 then 1
    else if n == 0 then 0
    else Binomial(n - 1, k - 1) + Binomial(n - 1, k)
  }

  /** The partial binomial expansion: the sum of `Binomial(n, i) * x^i` for `i` in `[0, j]`. */
  function Expansion(n: nat, x: nat, j: nat): nat
  {
    if j == 0 then Binomial(n, 0)
    else Expansion(n, x, j - 1) + Binomial(n, j) * Pow(x, j)
  }

  lemma {:induction false} BinomialBeyond(n: nat, k: nat)
    requires k > n
    ensures Binomial(n, k) == 0
  {
    if n > 0 {
      BinomialBeyond(n - 1, k - 1);
      BinomialBeyond(n - 1, k);
    }
  }

  lemma {:induction false} BinomialDiagonal(n: nat)
    ensures Binomial(n, n) == 1
  {
    if n > 0 {
      BinomialDiagonal(n - 1);
      BinomialBeyond(n - 1, n);
    }
  }

  lemma {:induction false} BinomialOne(n: nat)
    ensures Binomial(n, 1) == n
  {
    if n > 0 {
      BinomialOne(n - 1);
    }
  }

  /** The absorption identity `k * C(n, k) == n * C(n - 1, k - 1)`. */
  lemma {:induction false} Absorption(n: nat, k: nat)
    requires n >= 1 && k >= 1
    ensures k * Binomial(n, k) == n * Binomial(n - 1, k - 1)
  {
    if k == 1 {
      BinomialOne(n);
    } else if n == 1 {
      BinomialBeyond(0, k - 1);
      BinomialBeyond(0, k);
    } else {
      var a := Binomial(n - 1, k - 1);
      var b := Binomial(n - 1, k);
      var c := Binomial(n - 2, k - 2);
      var c' := Binomial(n - 2, k - 1);
      assert Binomial(n, k) == a + b;
      assert a == c + c';
      Absorption(n - 1, k);
      Absorption(n - 1, k - 1);
      AbsorptionStep(n, k, a, b, c, c');
    }
  }

  /** The arithmetic of the inductive step of `Absorption`. */
  lemma AbsorptionStep(n: int, k: int, a: int, b: int, c: int, c': int)
    requires a == c + c' && k * b == (n - 1) * c' && (k - 1) * a == (n - 1) * c
    ensures k * (a + b) == n * a
  {
    calc {
      k * (a + b);
      k * a + k * b;
      a + (k - 1) * a + k * b;
      a + (n - 1) * c + (n - 1) * c';
      a + (n - 1) * (c + c');
      n * a;
    }
  }

  /** A prime divides each of its inner binomial coefficients. */
  lemma PrimeDividesBinomial(p: nat, k: nat)
    requires IsPrime(p) && 0 < k < p
    ensures Binomial(p, k) % p == 0
  {
    Absorption(p, k);
    ModMultiple(p, Binomial(p - 1, k - 1));
    assert (k * Binomial(p, k)) % p == 0;
    EuclidLemma(p, k, Binomial(p, k));
    DivModUnique(k, p, 0, k);
  }

  /** Pascal's rule lifted to the partial expansions. */
  lemma {:induction false} ExpansionPascal(n: nat, x: nat, j: nat)
    requires j >= 1
    ensures Expansion(n + 1, x, j) == Expansion(n, x, j) + x * Expansion(n, x, j - 1)
  {
    if j == 1 {
      BinomialOne(n);
      BinomialOne(n + 1);
      assert Pow(x, 1) == x;
    } else {
      ExpansionPascal(n, x, j - 1);
      var u := Pow(x, j - 1);
      var b0, b1 := Binomial(n, j - 1), Binomial(n, j);
      var f, f1 := Expansion(n + 1, x, j), Expansion(n + 1, x, j - 1);
      var g, g1, g2 := Expansion(n, x, j), Expansion(n, x, j - 1), Expansion(n, x, j - 2);
      assert Pow(x, j) == x * u;
      assert Binomial(n + 1, j) == b0 + b1;
      assert f == f1 + (b0 + b1) * (x * u);
      assert g == g1 + b1 * (x * u);
      assert g1 == g2 + b0 * u;
      PascalStep(f, f1, g, g1, g2, b0, b1, x, u);
    }
  }

  /** The arithmetic of the inductive step of `ExpansionPascal`. */
  lemma PascalStep(f: int, f1: int, g: int, g1: int, g2: int, b0: int, b1: int, x: int, u: int)
    requires f == f1 + (b0 + b1) * (x * u)
    requires f1 == g1 + x * g2
    requires g == g1 + b1 * (x * u)
    requires g1 == g2 + b0 * u
    ensures f == g + x * g1
  {
    calc {
      f;
      g1 + x * g2 + b0 * (x * u) + b1 * (x * u);
      g + x * g2 + x * (b0 * u);
      g + x * (g2 + b0 * u);
      g + x * g1;
    }
  }

  /** The binomial theorem for `(x + 1)^n`. */
  lemma {:induction false} BinomialTheorem(x: nat, n: nat)
    ensures Pow(x + 1, n) == Expansion(n, x, n)
  {
    if n > 0 {
      BinomialTheorem(x, n - 1);
      var e := Expansion(n - 1, x, n - 1);
      ExpansionPascal(n - 1, x, n);
      BinomialBeyond(n - 1, n);
      assert Expansion(n - 1, x, n) == e;
      calc {
        Pow(x + 1, n);
        (x + 1) * e;
        e + x * e;
        Expansion(n, x, n);
      }
    }
  }

  /** Every partial expansion of `(x + 1)^p` short of the last term is one modulo `p`. */
  lemma {:induction false} ExpansionModPrime(p: nat, x: nat, j: nat)
    requires IsPrime(p) && j < p
    ensures Expansion(p, x, j) % p == 1
  {
    if j == 0 {
      DivModUnique(1, p, 0, 1);
    } else {
      ExpansionModPrime(p, x, j - 1);
      PrimeDividesBinomial(p, j);
      var b, w := Binomial(p, j), Pow(x, j);
      var e0 := Expansion(p, x, j - 1);
      assert Expansion(p, x, j) == e0 + b * w;
      ModAddDivisibleTerm(e0, b, w, p);
    }
  }

  /** `(x + 1)^p == x^p + 1` modulo a prime `p`. */
  lemma FreshmanDream(p: nat, x: nat)
    requires IsPrime(p)
    ensures Pow(x + 1, p) % p == (Pow(x, p) + 1) % p
  {
    BinomialTheorem(x, p);
    BinomialDiagonal(p);
    var e := Expansion(p, x, p - 1);
    assert Pow(x + 1, p) == e + Pow(x, p);
    ExpansionModPrime(p, x, p - 1);
    ModAdd(e, Pow(x, p), p);
    ModAdd(1, Pow(x, p), p);
    DivModUnique(1, p, 0, 1);
  }

  /** `a^p == a` modulo a prime `p`, for every natural `a`. */
  lemma {:induction false} FermatPow(p: nat, a: nat)
    requires IsPrime(p)
    ensures Pow(a, p) % p == a % p
  {
    if a == 0 {
      assert Pow(0, p) == 0 * Pow(0, p - 1);
    } else {
      FermatPow(p, a - 1);
      FreshmanDream(p, a - 1);
      ModAdd(Pow(a - 1, p), 1, p);
      ModAdd(a - 1, 1, p);
    }
  }

  /** Fermat's little theorem: `a^(p-1) == 1` modulo a prime `p` that does not divide `a`. */
  lemma FermatLittle(p: nat, a: nat)
    requires IsPrime(p) && a % p != 0
    ensures Pow(a, p - 1) % p == 1
  {
    var t := Pow(a, p - 1);
    assert Pow(a, p) == a * t;
    FermatPow(p, a);
    assert a * t >= a;
    ModEqualDifference(a * t, a, p);
    assert a * t - a == a * (t - 1);
    EuclidLemma(p, a, t - 1);
    var k := (t - 1) / p;
    assert t == 1 + p * k;
    ModAddMultiple(1, p, k);
    DivModUnique(1, p, 0, 1);
  }
}

=== FILE: miller_rabin.dfy ===
/**
 The Miller-Rabin probabilistic primality test of `miller_rabin_test`
 (Simple_tcpServer.py:48-91), as in appendix C.3.1 of FIPS 186-4. The
 random bases drawn by `random.randrange(2, n - 1)` are an explicit input
 sequence, one base per round, so `k == |bases|`.
 */
module MillerRabin {
  import opened Arithmetic
  import opened Primes
  import opened Fermat

  /** Outcome of the cheap checks that run before the witness rounds. */
  datatype FastVerdict = Accept | Reject | Continue

  /** The sum of the decimal digits of `n`, that is, of `str(n)`. */
  function DigitSum(n: nat): nat
  {
    if n < 10 then n else n % 10 + DigitSum(n / 10)
  }

  /** A number and its decimal digit sum agree modulo 3. */
  lemma {:induction false} DigitSumMod3(n: nat)
    ensures DigitSum(n) % 3 == n % 3
  {
    if n >= 10 {
      var q, u := n / 10, n % 10;
      DigitSumMod3(q);
      assert n == (q + u) + 3 * (3 * q);
      ModAddMultiple(q + u, 3, 3 * q);
      ModAdd(u, DigitSum(q), 3);
      ModAdd(u, q, 3);
    }
  }

  /** The last decimal digit of `n` decides divisibility by 5. */
  lemma LastDigitMod5(n: nat)
    ensures (n % 10) % 5 == n % 5
  {
    assert n == n % 10 + 5 * (2 * (n / 10));
    ModAddMultiple(n % 10, 5, 2 * (n / 10));
  }

  /**
   The fast path of the test: the five small primes are accepted; 1, even
   numbers, numbers whose digit sum is a multiple of 3 and numbers whose last
   digit is 0, 2, 4, 5, 6 or 8 are rejected. Whatever is left is odd, a
   multiple of neither 3 nor 5 and at least 13, so the base range `[2, n - 2]`
   of the rounds is not empty.
   */
  function FastPath(n: nat): (v: FastVerdict)
    ensures v == Accept <==> n == 2 || n == 3 || n == 5 || n == 7 || n == 11
    ensures v == Continue ==> n >= 13 && n % 2 == 1 && n % 3 != 0 && n % 5 != 0
  {
    DigitSumMod3(n);
    LastDigitMod5(n);
    if n == 2 || n == 3 || n == 5 || n == 7 || n == 11 then Accept
    else if n % 2 == 0 || n == 1 then Reject
    else if DigitSum(n) % 3 == 0 then Reject
    else if n % 10 in [0, 2, 4, 5, 6, 8] then Reject
    else Continue
  }

  /** The fast path rejects no prime: each of its rejections exhibits a factor. */
  lemma FastPathRejectsOnlyNonPrimes(n: nat)
    requires FastPath(n) == Reject
    ensures !IsPrime(n)
  {
    DigitSumMod3(n);
    LastDigitMod5(n);
    if n >= 2 {
      if n % 2 == 0 {
        assert Divides(2, n);
      } else if n % 3 == 0 {
        assert Divides(3, n);
      } else {
        assert Divides(5, n);
      }
    }
  }

  /** `m == 2^r * d` with `d` odd. */
  predicate IsOddSplit(m: nat, r: nat, d: nat)
  {
    d % 2 == 1 && Pow(2, r) * d == m
  }

  /** The split of a positive number into a power of two and an odd part. */
  function OddSplit(m: nat): (rd: (nat, nat))
    requires m >= 1
    ensures IsOddSplit(m, rd.0, rd.1)
    decreases m
  {
    if m % 2 == 1 then (0, m)
    else
      var (r, d) := OddSplit(m / 2);
      OddSplitDouble(m, r, d);
      (r + 1, d)
  }

  /** Doubling a number adds one to the power of two of its split. */
  lemma OddSplitDouble(m: nat, r: nat, d: nat)
    requires m % 2 == 0 && IsOddSplit(m / 2, r, d)
    ensures IsOddSplit(m, r + 1, d)
  {
    var h := Pow(2, r);
    assert Pow(2, r + 1) == 2 * h;
    MulAssociative(2, h, d);
  }

  /** The split is unique, so every way of computing it agrees with `OddSplit`. */
  lemma {:induction false} OddSplitUnique(m: nat, r1: nat, d1: nat, r2: nat, d2: nat)
    requires IsOddSplit(m, r1, d1) && IsOddSplit(m, r2, d2)
    ensures r1 == r2 && d1 == d2
    decreases r1
  {
    SplitParity(m, r1, d1);
    SplitParity(m, r2, d2);
    if r1 > 0 {
      OddSplitHalve(m, r1, d1);
      OddSplitHalve(m, r2, d2);
      OddSplitUnique(m / 2, r1 - 1, d1, r2 - 1, d2);
    }
  }

  /** Halving an even number removes one factor two from its split. */
  lemma OddSplitHalve(m: nat, r: nat, d: nat)
    requires IsOddSplit(m, r, d) && r > 0
    ensures m % 2 == 0 && IsOddSplit(m / 2, r - 1, d)
  {
    var p := Pow(2, r - 1);
    assert Pow(2, r) == 2 * p;
    MulAssociative(2, p, d);
  }

  /** The power of two in a split is zero exactly when the number is odd. */
  lemma SplitParity(m: nat, r: nat, d: nat)
    requires IsOddSplit(m, r, d)
    ensures r == 0 <==> m % 2 == 1
  {
    if r > 0 {
      var p := Pow(2, r - 1);
      assert m == 2 * (p * d);
    }
  }

  /** The loop `while d % 2 == 0: r += 1; d //= 2` that splits `n - 1`. */
  method SplitPowerOfTwo(m: nat) returns (r: nat, d: nat)
    requires m >= 1
    ensures d % 2 == 1 && Pow(2, r) * d == m
    ensures (r, d) == OddSplit(m)
  {
    r, d := 0, m;
    while d % 2 == 0
      invariant d >= 1 && Pow(2, r) * d == m
      decreases d
    {
      assert Pow(2, r + 1) * (d / 2) == Pow(2, r) * d;
      r, d := r + 1, d / 2;
    }
    var (r', d') := OddSplit(m);
    OddSplitUnique(m, r, d, r', d');
  }

  /** `k` successive squarings of `x` modulo `n`. */
  function Square(x: nat, n: nat, k: nat): nat
    requires n > 0
    decreases k
  {
    if k == 0 then x else Square((x * x) % n, n, k - 1)
  }

  /**
   The inner `for _ in range(steps)` loop: square `x` modulo `n` up to
   `steps` times and report whether `n - 1` turned up.
   */
  function ReachesMinusOne(x: nat, n: nat, steps: nat): bool
    requires n > 0
    decreases steps
  {
    steps > 0 && (var y := (x * x) % n; y == n - 1 || ReachesMinusOne(y, n, steps - 1))
  }

  /**
   One round with base `a`, where `n - 1 == 2^r * d`: true when the round
   passes (the source's `continue` or `break`), false when it returns False.
   Python's `range(r - 1)` is empty when `r == 0`.
   */
  function WitnessRound(n: nat, a: nat, r: nat, d: nat): bool
    requires n > 0
  {
    var x := Pow(a, d) % n;
    x == 1 || x == n - 1 || ReachesMinusOne(x, n, if r >= 1 then r - 1 else 0)
  }

  /** The whole test: the fast path, then one round per base. */
  function MillerRabinTest(n: nat, bases: seq<nat>): (probablyPrime: bool)
    ensures (n == 2 || n == 3 || n == 5 || n == 7 || n == 11) ==> probablyPrime
    ensures probablyPrime ==> n >= 2
    ensures probablyPrime && n != 2 ==> n % 2 == 1
    ensures probablyPrime && n != 3 ==> n % 3 != 0
    ensures probablyPrime && n != 5 ==> n % 5 != 0
  {
    match FastPath(n)
    case Accept => true
    case Reject => false
    case Continue =>
      var (r, d) := OddSplit(n - 1);
      forall i | 0 <= i < |bases| :: WitnessRound(n, bases[i], r, d)
  }

  /** Squaring `a^e` modulo `n` `k` times gives `a^(2^k * e)` modulo `n`. */
  lemma {:induction false} SquarePow(a: nat, e: nat, n: nat, k: nat)
    requires n > 0
    ensures Square(Pow(a, e) % n, n, k) == Pow(a, Pow(2, k) * e) % n
    decreases k
  {
    if k > 0 {
      var x := Pow(a, e) % n;
      SquareOfPow(a, e, n);
      assert Square(x, n, k) == Square(Pow(a, e + e) % n, n, k - 1);
      SquarePow(a, e + e, n, k - 1);
      DoubleExponent(k, e);
    }
  }

  /** Squaring `a^e` modulo `n` gives `a^(2 * e)` modulo `n`. */
  lemma SquareOfPow(a: nat, e: nat, n: nat)
    requires n > 0
    ensures ((Pow(a, e) % n) * (Pow(a, e) % n)) % n == Pow(a, e + e) % n
  {
    var y := Pow(a, e);
    ModMul(y, y, n);
    ModOfMod(y, n);
    PowAdd(a, e, e);
  }

  lemma DoubleExponent(k: nat, e: nat)
    requires k > 0
    ensures Pow(2, k - 1) * (e + e) == Pow(2, k) * e
  {
    var h := Pow(2, k - 1);
    assert Pow(2, k) == 2 * h;
  }

  /**
   Modulo a prime, if `steps + 1` squarings of `x` reach 1 then `x` is 1 or
   `n - 1`, or `n - 1` shows up within the first `steps` squarings.
   */
  lemma {:induction false} MinusOneBeforeOne(n: nat, x: nat, steps: nat)
    requires IsPrime(n) && x < n && Square(x, n, steps + 1) == 1
    ensures x == 1 || x == n - 1 || ReachesMinusOne(x, n, steps)
    decreases steps
  {
    var y := (x * x) % n;
    if steps == 0 {
      SquareRootOfOne(n, x);
    } else {
      MinusOneBeforeOne(n, y, steps - 1);
      if y == 1 {
        SquareRootOfOne(n, x);
      }
    }
  }

  /** An odd prime passes the round for every base it does not divide. */
  lemma PrimePassesRound(n: nat, a: nat, r: nat, d: nat)
    requires IsPrime(n) && n % 2 == 1 && a % n != 0
    requires IsOddSplit(n - 1, r, d)
    ensures WitnessRound(n, a, r, d)
  {
    SquarePow(a, d, n, r);
    FermatLittle(n, a);
    MinusOneBeforeOne(n, Pow(a, d) % n, r - 1);
  }

  /**
   Soundness of the test: a prime is never rejected, whatever the bases in
   `[2, n - 2]`. Put the other way round, a False answer proves that `n` is
   composite.
   */
  lemma MillerRabinSound(n: nat, bases: seq<nat>)
    requires IsPrime(n)
    requires FastPath(n) == Continue ==> forall i :: 0 <= i < |bases| ==> 2 <= bases[i] <= n - 2
    ensures MillerRabinTest(n, bases)
  {
    if FastPath(n) == Reject {
      FastPathRejectsOnlyNonPrimes(n);
    } else if FastPath(n) == Continue {
      var (r, d) := OddSplit(n - 1);
      forall i | 0 <= i < |bases|
        ensures WitnessRound(n, bases[i], r, d)
      {
        DivModUnique(bases[i], n, 0, bases[i]);
        PrimePassesRound(n, bases[i], r, d);
      }
    }
  }

  /**
   The test is only probabilistic: the composite 49 passes the round with
   base 18, a strong liar, and fails the round with base 2, a witness.
   */
  lemma StrongLiarFortyNine()
    ensures !IsPrime(49)
    ensures MillerRabinTest(49, [18])
    ensures !MillerRabinTest(49, [2])
  {
    assert Divides(7, 49);
    assert FastPath(49) == Continue;
    var (r, d) := OddSplit(48);
    OddSplitUnique(48, r, d, 4, 3);
    assert Pow(18, 3) == 5832;
    assert Pow(2, 3) == 8;
    assert !ReachesMinusOne(8, 49, 3) by {
      assert !ReachesMinusOne(29, 49, 1);
      assert !ReachesMinusOne(15, 49, 2);
    }
    assert OddSplit(48) == (4, 3);
    assert !WitnessRound(49, [2][0], 4, 3);
  }

  /** The expectations of the unit tests, for any choice of bases. */
  lemma UnitTestExpectations(bases: seq<nat>)
    ensures MillerRabinTest(2, bases) && MillerRabinTest(3, bases) && MillerRabinTest(5, bases)
    ensures MillerRabinTest(7, bases) && MillerRabinTest(11, bases)
    ensures !MillerRabinTest(4, bases) && !MillerRabinTest(6, bases) && !MillerRabinTest(8, bases)
    ensures !MillerRabinTest(9, bases) && !MillerRabinTest(10, bases)
    ensures !MillerRabinTest(104728, bases) && !MillerRabinTest(1299708, bases)
    ensures !MillerRabinTest(32416190070, bases) && !MillerRabinTest(32416187566, bases)
  {
  }
}

=== FILE: octets.dfy ===
/**
 Big-endian conversion between byte strings and naturals, as used by
 `encrypt_rsa` and `decrypt_rsa` (Simple_tcpServer.py:321, :327, :363,
 :369): `int.from_bytes(b, byteorder='big')` and
 `x.to_bytes((x.bit_length() + 7) // 8, byteorder='big')`. This is OS2IP
 and I2OSP of section 4 of RFC 8017, except that the output length is the
 minimal one rather than the modulus length.
 */
module Octets {
  import opened Arithmetic

  type Byte = x: nat | x < 256

  /** `int.from_bytes(s, byteorder='big')`. */
  function FromBytes(s: seq<Byte>): nat
  {
    if |s| == 0 then 0 else 256 * FromBytes(s[..|s| - 1]) + s[|s| - 1]
  }

  /**
   `x.to_bytes(len, byteorder='big')`, for values that fit (Python raises
   OverflowError otherwise): `len` bytes that read back as `x`.
   */
  function ToBytes(x: nat, len: nat): (s: seq<Byte>)
    requires x < Pow(256, len)
    ensures |s| == len && FromBytes(s) == x
  {
    if len == 0 then []
    else
      DivBelow(x, 256, Pow(256, len - 1));
      var s := ToBytes(x / 256, len - 1) + [x % 256];
      assert s[..|s| - 1] == ToBytes(x / 256, len - 1);
      s
  }

  /** A value below `n * bound` has quotient by `n` below `bound`. */
  lemma DivBelow(x: nat, n: nat, bound: nat)
    requires n > 0 && x < n * bound
    ensures x / n < bound
  {
    var q := x / n;
    assert x == n * q + x % n;
    if q >= bound {
      MulAtLeast(n, q - bound + 1);
    }
  }

  /** `x.bit_length()`: the number of binary digits of `x`, zero for zero. */
  function BitLength(x: nat): nat
  {
    if x == 0 then 0 else 1 + BitLength(x / 2)
  }

  /** `BitLength(x)` is the `k` with `2^(k-1) <= x < 2^k`. */
  lemma {:induction false} BitLengthBounds(x: nat)
    ensures x < Pow(2, BitLength(x))
    ensures x > 0 ==> Pow(2, BitLength(x) - 1) <= x
  {
    if x > 0 {
      BitLengthBounds(x / 2);
      var k := BitLength(x / 2);
      assert Pow(2, k + 1) == 2 * Pow(2, k);
      if x / 2 > 0 {
        assert Pow(2, k) == 2 * Pow(2, k - 1);
      }
    }
  }

  /** A number below `2^k` has at most `k` bits; one at least `2^k` has more than `k`. */
  lemma {:induction false} BitLengthCompare(x: nat, k: nat)
    ensures x < Pow(2, k) ==> BitLength(x) <= k
    ensures Pow(2, k) <= x ==> k < BitLength(x)
  {
    BitLengthBounds(x);
    if x < Pow(2, k) && BitLength(x) > k {
      PowMonotone(2, k, BitLength(x) - 1);
    }
    if Pow(2, k) <= x && BitLength(x) <= k {
      PowMonotone(2, BitLength(x), k);
    }
  }

  lemma Pow256(len: nat)
    ensures Pow(256, len) == Pow(2, 8 * len)
  {
    assert Pow(2, 8) == 256;
    PowMul(2, 8, len);
  }

  /** The byte count Python asks for: `(x.bit_length() + 7) // 8`. */
  function ByteLength(x: nat): nat
  {
    (BitLength(x) + 7) / 8
  }

  /**
   The minimal big-endian encoding of `x`. It reads back as `x`, it never
   starts with a zero byte, and the empty string encodes zero.
   */
  function MinimalBytes(x: nat): (s: seq<Byte>)
    ensures FromBytes(s) == x
    ensures |s| == 0 <==> x == 0
    ensures |s| > 0 ==> s[0] != 0
  {
    MinimalLengthFits(x);
    var s := ToBytes(x, ByteLength(x));
    if |s| > 0 then
      LeadingByte(s);
      s
    else
      s
  }

  /** `ByteLength(x)` bytes are enough for `x`, and one fewer would not be. */
  lemma MinimalLengthFits(x: nat)
    ensures x < Pow(256, ByteLength(x))
    ensures ByteLength(x) > 0 ==> Pow(256, ByteLength(x) - 1) <= x
  {
    var len := ByteLength(x);
    BitLengthBounds(x);
    Pow256(len);
    PowMonotone(2, BitLength(x), 8 * len);
    if len > 0 {
      Pow256(len - 1);
      PowMonotone(2, 8 * (len - 1), BitLength(x) - 1);
    }
  }

  /** A string of `len` bytes reads back below `256^len`. */
  lemma {:induction false} FromBytesBelow(s: seq<Byte>)
    ensures FromBytes(s) < Pow(256, |s|)
  {
    if |s| > 0 {
      FromBytesBelow(s[..|s| - 1]);
    }
  }

  /** The first byte is zero exactly when the value is below `256^(len - 1)`. */
  lemma {:induction false} LeadingByte(s: seq<Byte>)
    requires |s| >= 1
    ensures s[0] == 0 <==> FromBytes(s) < Pow(256, |s| - 1)
  {
    if |s| > 1 {
      var init := s[..|s| - 1];
      LeadingByte(init);
      assert init[0] == s[0];
      var p := Pow(256, |s| - 2);
      assert Pow(256, |s| - 1) == 256 * p;
      if FromBytes(init) < p {
        assert FromBytes(s) <= 256 * (p - 1) + 255;
      } else {
        assert FromBytes(s) >= 256 * p;
      }
    }
  }

  /** Encoding a string's value at the string's own length gives the string back. */
  lemma {:induction false} ToBytesFromBytes(s: seq<Byte>)
    ensures FromBytes(s) < Pow(256, |s|)
    ensures ToBytes(FromBytes(s), |s|) == s
  {
    FromBytesBelow(s);
    if |s| > 0 {
      var init := s[..|s| - 1];
      ToBytesFromBytes(init);
      var x := FromBytes(s);
      DivModUnique(x, 256, FromBytes(init), s[|s| - 1]);
      assert s == init + [s[|s| - 1]];
    }
  }

  /** A byte string with no leading zero byte. */
  predicate NoLeadingZero(s: seq<Byte>)
  {
    |s| == 0 || s[0] != 0
  }

  /**
   Decoding and re-encoding at the minimal length is the identity exactly on
   the strings without a leading zero byte.
   */
  lemma MinimalBytesRoundTrip(s: seq<Byte>)
    ensures MinimalBytes(FromBytes(s)) == s <==> NoLeadingZero(s)
  {
    var x := FromBytes(s);
    if NoLeadingZero(s) && |s| > 0 {
      FromBytesBelow(s);
      LeadingByte(s);
      Pow256(|s|);
      Pow256(|s| - 1);
      BitLengthCompare(x, 8 * |s|);
      BitLengthCompare(x, 8 * (|s| - 1));
      assert ByteLength(x) == |s|;
      ToBytesFromBytes(s);
    }
  }

  /** Leading zero bytes do not change the value, so a round trip drops them. */
  lemma {:induction false} LeadingZeroDropped(s: seq<Byte>)
    ensures FromBytes([0] + s) == FromBytes(s)
  {
    if |s| > 0 {
      var init := s[..|s| - 1];
      LeadingZeroDropped(init);
      assert ([0] + s)[..|s|] == [0] + init;
    }
  }
}

=== FILE: primes.dfy ===
/**
 Primes, the greatest common divisor and the facts about them that the
 Miller-Rabin soundness argument and RSA correctness need: Bezout's identity,
 Euclid's lemma and the square roots of one modulo a prime.
 */
module Primes {
  import opened Arithmetic

  /** `n` is prime: at least two, and no divisor strictly between 1 and `n`. */
  ghost predicate IsPrime(n: nat)
  {
    n >= 2 && forall k: nat :: 1 < k < n ==> !Divides(k, n)
  }

  /** `g` is a greatest common divisor of `a` and `b` in the divisibility order. */
  ghost predicate IsGcd(g: nat, a: nat, b: nat)
  {
    && Divides(g, a)
    && Divides(g, b)
    && forall c: nat :: Divides(c, a) && Divides(c, b) ==> Divides(c, g)
  }

  /** The Euclidean recursion, the reference the loop in `Euclid` is measured against. */
  function Gcd(a: nat, b: nat): nat
    decreases b
  {
    if b == 0 then a else Gcd(b, a % b)
  }

  /** A linear combination of multiples of `c` is a multiple of `c`. */
  lemma DividesCombination(c: nat, x: int, y: int, k: int)
    requires c > 0 && x % c == 0 && y % c == 0
    ensures (x + y * k) % c == 0
  {
    assert x == c * (x / c);
    assert y == c * (y / c);
    assert y * k == c * ((y / c) * k);
    assert x + y * k == c * (x / c + (y / c) * k);
    ModMultiple(c, x / c + (y / c) * k);
  }

  /** Mutual divisibility of naturals is equality. */
  lemma DividesAntisymmetric(a: nat, b: nat)
    requires Divides(a, b) && Divides(b, a)
    ensures a == b
  {
    if a > 0 && b > 0 {
      assert a == b * (a / b);
      assert b == a * (b / a);
      DivisorAtMost(a, b);
      DivisorAtMost(b, a);
    }
  }

  /** A divisor of a positive number is at most that number. */
  lemma DivisorAtMost(d: nat, n: nat)
    requires n > 0 && Divides(d, n)
    ensures d <= n
  {
    if d > n {
      DivModUnique(n, d, 0, n);
    }
  }

  lemma {:induction false} GcdDivides(a: nat, b: nat)
    ensures Divides(Gcd(a, b), a) && Divides(Gcd(a, b), b)
    decreases b
  {
    if b > 0 {
      var g := Gcd(b, a % b);
      GcdDivides(b, a % b);
      assert g > 0;
      assert a == a % b + b * (a / b);
      DividesCombination(g, a % b, b, a / b);
    } else {
      assert a == 0 || a % a == 0;
    }
  }

  lemma {:induction false} GcdGreatest(a: nat, b: nat, c: nat)
    requires Divides(c, a) && Divides(c, b)
    ensures Divides(c, Gcd(a, b))
    decreases b
  {
    if b > 0 {
      assert c > 0;
      assert a % b == a + b * (-(a / b));
      DividesCombination(c, a, b, -(a / b));
      GcdGreatest(b, a % b, c);
    }
  }

  /** The Euclidean recursion computes a greatest common divisor. */
  lemma GcdIsGcd(a: nat, b: nat)
    ensures IsGcd(Gcd(a, b), a, b)
  {
    GcdDivides(a, b);
    forall c: nat | Divides(c, a) && Divides(c, b)
      ensures Divides(c, Gcd(a, b))
    {
      GcdGreatest(a, b, c);
    }
  }

  /** One is coprime to every number. */
  lemma GcdWithOne(n: nat)
    ensures Gcd(1, n) == 1
  {
    if n > 0 {
      DivModUnique(1, n, if n == 1 then 1 else 0, if n == 1 then 0 else 1);
      DivModUnique(n, 1, n, 0);
    }
  }

  /** Greatest common divisors are unique, so `Gcd` is symmetric. */
  lemma GcdCommutative(a: nat, b: nat)
    ensures Gcd(a, b) == Gcd(b, a)
  {
    GcdIsGcd(a, b);
    GcdIsGcd(b, a);
    GcdGreatest(a, b, Gcd(b, a));
    GcdGreatest(b, a, Gcd(a, b));
    DividesAntisymmetric(Gcd(a, b), Gcd(b, a));
  }

  /** Bezout coefficients: integers `x, y` with `x * a + y * b == Gcd(a, b)`. */
  ghost function Bezout(a: nat, b: nat): (xy: (int, int))
    ensures xy.0 * a + xy.1 * b == Gcd(a, b)
    decreases b
  {
    if b == 0 then (1, 0)
    else
      var (x, y) := Bezout(b, a % b);
      assert a % b == a - (a / b) * b;
      assert x * b + y * (a - (a / b) * b) == y * a + (x - y * (a / b)) * b;
      (y, x - y * (a / b))
  }

  /** The only divisors of a prime are one and itself. */
  lemma PrimeDivisors(p: nat, g: nat)
    requires IsPrime(p) && Divides(g, p)
    ensures g == 1 || g == p
  {
    DivisorAtMost(g, p);
    if g == 0 {
      assert p == 0;
    }
  }

  /** Euclid's lemma: a prime dividing a product divides one of the factors. */
  lemma EuclidLemma(p: nat, a: nat, b: nat)
    requires IsPrime(p) && (a * b) % p == 0
    ensures a % p == 0 || b % p == 0
  {
    if a % p != 0 {
      var g := Gcd(p, a);
      GcdDivides(p, a);
      PrimeDivisors(p, g);
      assert g == 1;
      var (x, y) := Bezout(p, a);
      BezoutCancel(p, a, b, x, y);
    }
  }

  /** If `x * p + y * a == 1` and `p` divides `a * b`, then `p` divides `b`. */
  lemma BezoutCancel(p: int, a: int, b: int, x: int, y: int)
    requires p > 0 && x * p + y * a == 1 && (a * b) % p == 0
    ensures b % p == 0
  {
    var k := (a * b) / p;
    assert a * b == p * k;
    assert b == b * (x * p + y * a);
    assert b == p * (b * x + y * k);
    ModMultiple(p, b * x + y * k);
  }

  /** Modulo a prime, one has no square roots other than one and minus one. */
  lemma SquareRootOfOne(p: nat, x: nat)
    requires IsPrime(p) && x < p && (x * x) % p == 1
    ensures x == 1 || x == p - 1
  {
    // (x - 1) * (x + 1) is a multiple of p, so p divides x - 1 or x + 1
    var k := (x * x) / p;
    assert x * x == p * k + 1;
    assert (x - 1) * (x + 1) == p * k;
    ModMultiple(p, k);
    EuclidLemma(p, x - 1, x + 1);
    if (x - 1) % p == 0 {
      DivModUnique(x - 1, p, 0, x - 1);
    } else if x + 1 < p {
      DivModUnique(x + 1, p, 0, x + 1);
    }
  }

  /** Distinct primes do not divide one another. */
  lemma DistinctPrimes(p: nat, q: nat)
    requires IsPrime(p) && IsPrime(q) && p != q
    ensures p % q != 0
  {
    if p % q == 0 {
      PrimeDivisors(p, q);
    }
  }
}

=== FILE: rsa.dfy ===
/**
 Textbook RSA as the server does it: the arithmetic of `generate_rsa_keys`
 (Simple_tcpServer.py:264-294) with the two primes and the random exponent
 draws as parameters, and the integer/byte core of `encrypt_rsa` and
 `decrypt_rsa` (Simple_tcpServer.py:305-372), which are the RSAEP and RSADP
 primitives of section 5.1 of RFC 8017 without their range check.
 */
module Rsa {
  import opened Wrappers
  import opened Arithmetic
  import opened Primes
  import opened Fermat
  import opened Euclid
  import opened Octets

  datatype PublicKey = PublicKey(e: nat, n: nat)
  datatype PrivateKey = PrivateKey(d: nat, n: nat)
  datatype KeyPair = KeyPair(public: PublicKey, private: PrivateKey)

  /** Why key generation stops without a key. */
  datatype KeyGenError =
    | EmptyExponentRange  // `random.randrange(1, phi)` raises when `phi <= 1`
    | DrawsExhausted      // every supplied exponent draw shares a factor with `phi`

  /** `(p - 1) * (q - 1)`, Euler's totient of `p * q` for distinct primes. */
  function Totient(p: nat, q: nat): nat
    requires p >= 1 && q >= 1
  {
    (p - 1) * (q - 1)
  }

  /**
   What a successful key generation from `p` and `q` delivers: both keys
   share `n == p * q`, the exponent lies in `[1, phi)` and is coprime to
   `phi`, and the private exponent is an inverse of it modulo `phi` lying in
   `(0, 2 * phi)`, not necessarily reduced below `phi`.
   */
  ghost predicate ValidKeyPair(p: nat, q: nat, keys: KeyPair)
    requires p >= 1 && q >= 1
  {
    var phi := Totient(p, q);
    && keys.public.n == p * q
    && keys.private.n == p * q
    && 1 <= keys.public.e < phi
    && Gcd(keys.public.e, phi) == 1
    && (keys.public.e * keys.private.d) % phi == 1
    && 0 < keys.private.d < 2 * phi
  }

  /**
   The rejection loop `e = randrange(1, phi); while gcd(e, phi) != 1: e = randrange(1, phi)`
   over an explicit sequence of draws: the result is the first draw coprime
   to `phi`, or `None` when no draw is.
   */
  method ChooseExponent(phi: nat, draws: seq<nat>) returns (e: Option<nat>)
    requires forall i :: 0 <= i < |draws| ==> 1 <= draws[i] < phi
    ensures e.None? <==> forall i :: 0 <= i < |draws| ==> Gcd(draws[i], phi) != 1
    ensures e.Some? ==> exists i :: 0 <= i < |draws| && draws[i] == e.value && FirstCoprime(draws, phi, i)
  {
    var i := 0;
    while i < |draws|
      invariant 0 <= i <= |draws|
      invariant forall j :: 0 <= j < i ==> Gcd(draws[j], phi) != 1
    {
      var g := EuclidGcd(draws[i], phi);
      if g == 1 {
        return Some(draws[i]);
      }
      i := i + 1;
    }
    return None;
  }

  /** Draw `i` is the first one coprime to `phi`. */
  ghost predicate FirstCoprime(draws: seq<nat>, phi: nat, i: nat)
    requires i < |draws|
  {
    Gcd(draws[i], phi) == 1 && forall j :: 0 <= j < i ==> Gcd(draws[j], phi) != 1
  }

  /**
   `generate_rsa_keys` after the two prime searches: `n = p * q`,
   `phi = (p - 1) * (q - 1)`, `e` the first draw coprime to `phi`, and
   `d = mod_inverse(e, phi)`. `p == q` is not guarded against.
   */
  method GenerateKeys(p: nat, q: nat, draws: seq<nat>) returns (res: Result<KeyPair, KeyGenError>)
    requires p >= 2 && q >= 2
    requires forall i :: 0 <= i < |draws| ==> 1 <= draws[i] < Totient(p, q)
    ensures res == Failure(EmptyExponentRange) <==> Totient(p, q) <= 1
    ensures Totient(p, q) > 1 ==>
      (res == Failure(DrawsExhausted) <==> forall i :: 0 <= i < |draws| ==> Gcd(draws[i], Totient(p, q)) != 1)
    ensures res.Success? <==> Totient(p, q) > 1 && exists i :: 0 <= i < |draws| && Gcd(draws[i], Totient(p, q)) == 1
    ensures res.Success? ==> ValidKeyPair(p, q, res.value)
    ensures res.Success? ==> exists i :: 0 <= i < |draws| && draws[i] == res.value.public.e && FirstCoprime(draws, Totient(p, q), i)
  {
    var n := p * q;
    var phi := Totient(p, q);
    if phi <= 1 {
      return Failure(EmptyExponentRange);
    }
    var choice := ChooseExponent(phi, draws);
    if choice.None? {
      return Failure(DrawsExhausted);
    }
    var e := choice.value;
    assert 1 <= e < phi && Gcd(e, phi) == 1;
    GcdCommutative(e, phi);
    var inverse := ModInverse(e, phi);
    var d: nat := inverse.value;
    DivModUnique(1, phi, 0, 1);
    assert (e * d) % phi == 1;
    assert 0 < d < 2 * phi;
    var keys := KeyPair(PublicKey(e, n), PrivateKey(d, n));
    assert ValidKeyPair(p, q, keys);
    res := Success(keys);
  }

  /** `pow(m, e, n)`: RSAEP / RSADP on integers. */
  function ModPow(m: nat, e: nat, n: nat): (c: nat)
    requires n >= 1
    ensures c < n
  {
    Pow(m, e) % n
  }

  /**
   The byte core of `encrypt_rsa`: read the message bytes as a big-endian
   integer, raise it to `e` modulo `n`, and write the result at its minimal
   length. Nothing checks that the message value is below `n`.
   */
  function Encrypt(key: PublicKey, message: seq<Byte>): (cipher: seq<Byte>)
    requires key.n >= 1
    ensures FromBytes(cipher) < key.n
    ensures FromBytes(cipher) == Pow(FromBytes(message), key.e) % key.n
    ensures NoLeadingZero(cipher)
  {
    MinimalBytes(ModPow(FromBytes(message), key.e, key.n))
  }

  /** The byte core of `decrypt_rsa`, the same transform under the private exponent. */
  function Decrypt(key: PrivateKey, cipher: seq<Byte>): (message: seq<Byte>)
    requires key.n >= 1
    ensures FromBytes(message) < key.n
    ensures FromBytes(message) == Pow(FromBytes(cipher), key.d) % key.n
    ensures NoLeadingZero(message)
  {
    MinimalBytes(ModPow(FromBytes(cipher), key.d, key.n))
  }

  /**
   The exponent range `randrange(1, phi)` includes 1, which is coprime to
   every `phi` and so passes the `gcd` filter: the single draw 1 yields a
   valid key pair with `e == 1`.
   */
  method ExponentOneKeys(p: nat, q: nat) returns (keys: KeyPair)
    requires p >= 2 && q >= 2 && Totient(p, q) > 1
    ensures ValidKeyPair(p, q, keys)
    ensures keys.public.e == 1
  {
    var draws := [1];
    GcdWithOne(Totient(p, q));
    assert Gcd(draws[0], Totient(p, q)) == 1;
    var res := GenerateKeys(p, q, draws);
    keys := res.value;
  }

  /**
   With `e == 1`, encryption sends every message without a leading zero byte
   and below `n` to itself.
   */
  lemma ExponentOneIsIdentity(key: PublicKey, message: seq<Byte>)
    requires key.e == 1 && key.n >= 1
    requires FromBytes(message) < key.n && NoLeadingZero(message)
    ensures Encrypt(key, message) == message
  {
    var m := FromBytes(message);
    assert Pow(m, 1) == m;
    DivModUnique(m, key.n, 0, m);
    assert ModPow(m, 1, key.n) == m;
    MinimalBytesRoundTrip(message);
  }

  /** `m^(1 + k * (p - 1)) == m` modulo a prime `p`, for every `m`. */
  lemma PowCongruentModPrime(p: nat, m: nat, k: nat)
    requires IsPrime(p)
    ensures Pow(m, 1 + k * (p - 1)) % p == m % p
  {
    var t := k * (p - 1);
    var y := Pow(m, t);
    assert Pow(m, 1 + t) == m * y;
    if m % p == 0 {
      ModMulLeft(m, y, p);
    } else {
      FermatPowerIsOne(p, m, k);
      ModMul(m, y, p);
      ModOfMod(m, p);
    }
  }

  /** `(m^(p - 1))^k == 1` modulo a prime `p` that does not divide `m`. */
  lemma FermatPowerIsOne(p: nat, m: nat, k: nat)
    requires IsPrime(p) && m % p != 0
    ensures Pow(m, k * (p - 1)) % p == 1
  {
    PowMul(m, p - 1, k);
    assert (p - 1) * k == k * (p - 1);
    FermatLittle(p, m);
    PowMod(Pow(m, p - 1), k, p);
    PowOne(k);
    DivModUnique(1, p, 0, 1);
  }

  /** A positive power of `m` is at least `m`. */
  lemma PowAtLeastBase(m: nat, t: nat)
    requires t >= 1
    ensures Pow(m, t) >= m
  {
    if m > 0 {
      MulAtLeast(m, Pow(m, t - 1));
    }
  }

  /** Two distinct primes that both divide `x - y` divide it together. */
  lemma ChineseRemainder(p: nat, q: nat, x: nat, y: nat)
    requires IsPrime(p) && IsPrime(q) && p != q
    requires x >= y && x % p == y % p && x % q == y % q
    ensures x % (p * q) == y % (p * q)
  {
    ModEqualDifference(x, y, p);
    ModEqualDifference(x, y, q);
    DistinctPrimes(p, q);
    var u := (x - y) / p;
    assert x - y == p * u;
    ModMulLeft(p, u, q);
    EuclidLemma(q, p, u);
    ProductDivides(p, q, x - y, u);
    ModEqualFromDifference(x, y, p * q);
  }

  /**
   RSA correctness on integers: for distinct primes `p, q`, a message
   `m < p * q` and exponents inverse modulo `(p - 1) * (q - 1)`, decryption
   undoes encryption.
   */
  lemma RsaInverse(p: nat, q: nat, e: nat, d: nat, m: nat)
    requires IsPrime(p) && IsPrime(q) && p != q
    requires m < p * q
    requires (e * d) % Totient(p, q) == 1
    ensures ModPow(ModPow(m, e, p * q), d, p * q) == m
  {
    var n := p * q;
    var x := Pow(m, e * d);
    PowEdModPrime(p, q, e, d, m);
    assert Totient(q, p) == Totient(p, q);
    PowEdModPrime(q, p, e, d, m);
    PowAtLeastBase(m, e * d);
    ChineseRemainder(p, q, x, m);
    DivModUnique(m, n, 0, m);
    PowMod(Pow(m, e), d, n);
    PowMul(m, e, d);
  }

  /** With `e * d == 1` modulo `(p - 1) * (q - 1)`, `m^(e * d) == m` modulo the prime `p`. */
  lemma PowEdModPrime(p: nat, q: nat, e: nat, d: nat, m: nat)
    requires IsPrime(p) && q >= 2
    requires (e * d) % Totient(p, q) == 1
    ensures e * d >= 1
    ensures Pow(m, e * d) % p == m % p
  {
    var phi := Totient(p, q);
    var k := (e * d) / phi;
    assert e * d == 1 + phi * k;
    assert phi * k == (k * (q - 1)) * (p - 1);
    PowCongruentModPrime(p, m, k * (q - 1));
  }

  /**
   Decryption undoes encryption on byte strings up to leading zero bytes:
   the result is the minimal encoding of the message value.
   */
  lemma EncryptDecrypt(p: nat, q: nat, keys: KeyPair, message: seq<Byte>)
    requires IsPrime(p) && IsPrime(q) && p != q
    requires ValidKeyPair(p, q, keys)
    requires FromBytes(message) < p * q
    ensures Decrypt(keys.private, Encrypt(keys.public, message)) == MinimalBytes(FromBytes(message))
  {
    RsaInverse(p, q, keys.public.e, keys.private.d, FromBytes(message));
  }

  /** For messages without a leading zero byte the round trip is exact. */
  lemma RoundTrip(p: nat, q: nat, keys: KeyPair, message: seq<Byte>)
    requires IsPrime(p) && IsPrime(q) && p != q
    requires ValidKeyPair(p, q, keys)
    requires FromBytes(message) < p * q && NoLeadingZero(message)
    ensures Decrypt(keys.private, Encrypt(keys.public, message)) == message
  {
    EncryptDecrypt(p, q, keys, message);
    MinimalBytesRoundTrip(message);
  }
}

=== FILE: wrappers.dfy ===
/** `Option` and `Result` datatypes for the error paths of the model. */
module Wrappers {

  /** An optional value: `None` stands for Python's implicit `None` return. */
  datatype Option<+T> = None | Some(value: T)

  /** A value or an error, for operations that raise in the source. */
  datatype Result<+R, +E> = Success(value: R) | Failure(error: E)
}
